=== FILE: README.md ===
# Posts table: view-state controller, request layer and table view

A Dafny model of the client side of a small posts-management UI. The UI shows a
paginated, sortable, searchable table of posts held by a remote service. The
model covers three parts:

- **Request layer** (`Api`, from `src/services/api.ts`). It turns the table's
  view state into the ordered `getPosts` query. It builds the create, update and
  delete requests, with the `lastUpdated` stamp overwritten. It normalises
  `apiRequest`'s errors, and it reads the `X-Total-Count` header.
- **View-state controller** (`TableController`, from
  `src/hooks/useDataTable.ts`). It holds the `TableState` record and the four
  handlers that update it. It runs the fetch status machine (`loading`, `error`,
  `data`, `total`) as explicit start and settle events. Its write handlers
  refetch only on success.
- **Table component** (`DataTable`, from
  `src/components/DataTable/DataTable.tsx`). This covers the column toggle and
  the fixed display order of columns. It covers the "Showing a to b of n"
  range, the Previous/Next buttons and the sort arrow. It covers what the
  component shows: the error panel first, then the loading spinner, then the
  rows, or a render that throws. The component is also modelled as a state machine over user clicks, the
  debounced search callback, the parent's refetch flag and fetch settlements.

Supporting modules: `Data` holds the records of `src/types/data.ts`. `Numbers`
holds `String(n)` and `Number(text)` on decimal text.

The network, the clock and the debounce timer are outside the model:

- Every request-layer call takes an `Outcome`, which is what the service did
  with the request.
- The write timestamp is a parameter (`now`).
- The debounced search appears as its own event, `DebouncedSearch`.

The model follows the code as written. Five points differ from what one might
expect of such a table:

- Hiding or showing a column refetches, because any handler call replaces the
  state object. Each handler call starts two identical fetches: one from the
  hook's effect and one from the component's own effect on
  `[refetchTrigger, fetchData]`.
- Settlements are not matched to their requests. The response applied last
  wins, even when its request is the older one.
- `apiRequest` loses the status and message of a non-OK answer. Its own `catch`
  replaces the thrown plain object with "An unexpected error occurred" and
  status 500, so the hook's write handlers always set the error to "An error
  occurred". The page calls the request functions itself and only logs
  failures.
- `getPosts` does not check the status at all. An error answer whose body is
  an object, not a list, becomes the table's data, and the next render throws
  in `data.map`; with no error boundary nothing is drawn from then on.
- A write handler refetches the view state it was called under, not the one
  current when the write completes.

## Model

| member | source | states |
|---|---|---|
| Numbers.ToNumber | src/services/api.ts:69 | `Number(text)`: empty text is 0; an optionally signed digit run is its value; any other text is NaN |
| Numbers.DecimalRoundTrip | src/services/api.ts:60-61 | reading back `String(i)` with `Number` gives `i`, for every integer |
| Api.BuildConfig | src/services/api.ts:17-25 | the method defaults to GET; Content-Type is application/json unless the caller's headers set it; caller headers are all kept; the body passes through |
| Api.ApiRequest | src/services/api.ts:13-53 | OK answer: resolves with the parsed body, or null when the body is not JSON. Non-OK answer: rejects with "An unexpected error occurred" and 500. Transport error: rejects with its message and 500. Every rejection is a plain ApiError object, never an Error |
| Api.HttpFailureDetailsLost | src/services/api.ts:31-51 | the `try` block throws an object carrying the answer's status, but any two non-OK answers settle `apiRequest` identically |
| Api.PostsQuery | src/services/api.ts:58-65 | the query is exactly `_page,_limit,_sort,_order,q` in that order. Page and page size are read back as the state's numbers. The sort field, order name and search text are sent verbatim |
| Api.TotalCountReadsHeader | src/services/api.ts:69 | a header written as `String(n)` gives total `n`; a missing header gives 0 |
| Api.GetPosts | src/services/api.ts:55-77 | GET `/posts` with the state's query and no headers. A parseable body resolves with data = body and total from the header, and page and pageSize are echoed. Transport and JSON failures reject with the Error's message |
| Api.GetPostsIgnoresStatusAndColumns | src/services/api.ts:58-76 | the answer's status never changes what `getPosts` resolves with; the visible columns never change the request |
| Api.Stamp | src/services/api.ts:82-85 | the write body keeps every input field, adds `lastUpdated` and sets it to the supplied timestamp, overriding any incoming value |
| Api.RestampKeepsFields | src/services/api.ts:97-100 | stamping an already stamped body again changes only the timestamp; every other field is kept |
| Api.PostPath | src/services/api.ts:102 | `/posts/` followed by text that reads back as the id |
| Api.CreatePost | src/services/api.ts:79-91 | POST `/posts` with the stamped body, no query and only the JSON Content-Type header; resolves exactly when the answer is OK, with the parsed body or null; rejections are plain objects |
| Api.UpdatePost | src/services/api.ts:93-106 | PATCH `/posts/{id}` with the stamped body, no query and only the JSON Content-Type header; resolves exactly when the answer is OK, with the parsed body or null; rejections are plain objects |
| Api.DeletePost | src/services/api.ts:108-110 | DELETE `/posts/{id}` with no body, no query and only the JSON Content-Type header; resolves exactly when the answer is OK; rejections are plain objects |
| TableController.InitialController | src/hooks/useDataTable.ts:5-21 | initial state is page 1, size 10, sorted by lastUpdated descending, empty search, columns [title, author, lastUpdated]; not loading, no error, no data, total 0 |
| TableController.PageChange | src/hooks/useDataTable.ts:43-45 | page becomes the argument with no bounds check; no other field changes |
| TableController.SortChange | src/hooks/useDataTable.ts:47-54 | sortBy becomes the field. The order becomes desc exactly when the field was already sorted asc, so a new field starts asc. No other field changes |
| TableController.SortClicksAlternate | src/hooks/useDataTable.ts:47-54 | repeated clicks on one header alternate the order with period two: asc, desc, asc, and so on for a field not sorted before |
| TableController.SearchChange | src/hooks/useDataTable.ts:56-58 | search becomes the text and page becomes 1 whatever it was; size, sort and columns are unchanged |
| TableController.ColumnVisibilityChange | src/hooks/useDataTable.ts:60-62 | only visibleColumns changes, to the given list |
| TableController.ReducePreservesPageSize | src/hooks/useDataTable.ts:43-62 | no handler changes the page size; only page change and search move the page, and search always moves it to 1 |
| TableController.StartFetch | src/hooks/useDataTable.ts:23-26 | starting a fetch sets loading and clears the error; data and total stay visible |
| TableController.SettleFetch | src/hooks/useDataTable.ts:27-36 | success replaces data and total. Failure keeps data and total and sets the error to the Error's message or "An error occurred". Loading is false afterwards either way, and the view state is untouched |
| TableController.FetchCycle | src/hooks/useDataTable.ts:23-37 | a whole fetch against any outcome. A parseable body of any status replaces data and total and leaves no error. A transport or parse failure keeps the stale data and shows that Error's message |
| TableController.Dispatch | src/hooks/useDataTable.ts:37-41 | every handler call, even one that changes no value, starts one fetch for the new state from the hook's effect, with loading set and stale data kept |
| TableController.ColumnChangeRefetchesSameQuery | src/hooks/useDataTable.ts:37-41 | a column-visibility change fetches again, sending exactly the query it sent before |
| TableController.LastSettlementWins | src/hooks/useDataTable.ts:23-41 | with no stale-response guard, an older request that settles last overwrites the newer request's data under the newer view state |
| TableController.HandleWrite | src/hooks/useDataTable.ts:64-89 | on success, a fetch starts for the view state the handler was called under, while loading and error are set on the controller as it is when the write completes. On failure only the error is set, and nothing is fetched |
| TableController.HandleCreatePost | src/hooks/useDataTable.ts:64-71 | an OK answer refetches the call-time view state; any other outcome leaves everything but the error alone and shows "An error occurred" |
| TableController.HandleUpdatePost | src/hooks/useDataTable.ts:73-80 | an OK answer refetches the call-time view state; any other outcome leaves everything but the error alone and shows "An error occurred" |
| TableController.HandleDeletePost | src/hooks/useDataTable.ts:82-89 | an OK answer refetches the call-time view state; any other outcome leaves everything but the error alone and shows "An error occurred" |
| TableController.WriteRefetchesCallTimeState | src/hooks/useDataTable.ts:23-37 | when the view state changes while a create is pending, the refetch sends the old query, and its answer is shown under the new view state |
| TableController.DeleteMissingRecord | src/hooks/useDataTable.ts:82-89 | deleting a record the service answers 404 for keeps view state, data, total and loading, starts no fetch and sets "An error occurred" |
| DataTable.RemoveAll | src/components/DataTable/DataTable.tsx:56 | removing a column drops every occurrence of it and nothing else: the result is one shorter per occurrence removed, and all other columns keep their membership and their order |
| DataTable.ToggleColumn | src/components/DataTable/DataTable.tsx:54-57 | the toggled column's membership flips and every other column's is unchanged. A shown column loses exactly its own occurrences, the others kept in order; a hidden column is appended at the end |
| DataTable.RemoveAppended | src/components/DataTable/DataTable.tsx:55-57 | removing a column that was just appended restores the list exactly |
| DataTable.ToggleTwice | src/components/DataTable/DataTable.tsx:55-57 | toggling a hidden column twice restores the list exactly; toggling any column twice restores which columns are shown |
| DataTable.SelectColumns | src/components/DataTable/DataTable.tsx:115-116 | the drawn columns are exactly the fixed columns whose key is selected, in the fixed order |
| DataTable.SelectionOrderIrrelevant | src/components/DataTable/DataTable.tsx:155-156 | two selections with the same keys draw the same columns in the same order, whatever their order or repetitions |
| DataTable.SubsequenceKeepsDistinctKeys | src/components/DataTable/DataTable.tsx:115-116 | leaving columns out of a list whose keys are distinct, in order, keeps the keys distinct |
| DataTable.VisibleColumnsHaveDistinctKeys | src/components/DataTable/DataTable.tsx:115-116 | the drawn columns never repeat a key, whatever the selection, so the arrow lands on at most one of them |
| DataTable.RangeEnd | src/components/DataTable/DataTable.tsx:199-200 | the last shown row number is at most the total and at most page × pageSize, and equals one of them; it is NaN with a NaN total |
| DataTable.NextDisabledIffRangeReachesTotal | src/components/DataTable/DataTable.tsx:196-217 | Next is disabled exactly when the range ends at the total. While it is enabled the page is full. A NaN total never disables it |
| DataTable.RangeLength | src/components/DataTable/DataTable.tsx:196-200 | a full page shows exactly pageSize row numbers; an empty result on page 1 reads "1 to 0 of 0" |
| DataTable.SortIndicator | src/components/DataTable/DataTable.tsx:125-130 | an arrow appears exactly on the column equal to sortBy; it points up exactly when the order is asc |
| DataTable.HeaderRow | src/components/DataTable/DataTable.tsx:115-130 | one header per drawn column, in display order; a header has an arrow exactly when its key equals sortBy, pointing up exactly when the order is asc |
| DataTable.AtMostOneIndicator | src/components/DataTable/DataTable.tsx:121-130 | over columns with distinct keys, at most one header carries an arrow |
| DataTable.Render | src/components/DataTable/DataTable.tsx:62-217 | a non-empty error shows the error panel instead of the table. Otherwise, when not loading and the data is not a list, `data.map` throws and nothing is drawn. Otherwise the header is the header row of the drawn columns; loading shows one spinner row spanning selected columns + 1, and a list of posts gives one row per post, with one cell per drawn column. The range is as above. Previous is disabled iff page is 1, and Next as above |
| DataTable.Mount | src/components/DataTable/DataTable.tsx:38-49 | mounting starts two fetches for the initial state, one from each effect. The component's selected columns and search box are seeded from the controller's state, the data starts as an empty list with total 0, and the refetch flag is the parent's |
| DataTable.Step | src/components/DataTable/DataTable.tsx:41-60 | Previous and Next apply the page handler with page ∓ 1, a header click the sort handler, the debounced callback the search handler. A toggle sets the component's list to the toggled one and hands that same list to the column handler. Typing changes only the search box. A refetch flip fetches once for the unchanged state. A settlement applies the outcome of the chosen pending request, whichever it is, and removes just that request. Every handler starts two fetches for the new state and keeps the stale data and total on screen. Only the flip changes the refetch flag |
| DataTable.ClickedHeaderGetsArrow | src/components/DataTable/DataTable.tsx:121-130 | clicking a header sorts by its key and moves the arrow there: down if it was ascending, otherwise up |
| DataTable.MountIsConsistent | src/components/DataTable/DataTable.tsx:45-47 | after mounting, the component's and the controller's column lists agree, page is at least 1, page size is 10, and a fetch is pending while loading |
| DataTable.AfterHandler | src/components/DataTable/DataTable.tsx:41-43 | after a handler call the view state is the handler's result; two fetches for it are added, one from each effect; loading is set, the error cleared and the stale data kept; the search box and the refetch flag are untouched |
| DataTable.DebouncedSearchUsesBoxText | src/components/DataTable/DataTable.tsx:50-52 | the debounced callback searches for the text in the search box and resets the page to 1 |
| DataTable.PreviousAvailableAfterFirstPage | src/components/DataTable/DataTable.tsx:207-209 | whenever Previous can be clicked, the page is not 1 |
| DataTable.StepKeepsConsistent | src/components/DataTable/DataTable.tsx:54-217 | any event keeps the column lists equal, page ≥ 1, page size 10, and some fetch pending while loading, given that Previous is used only past page 1 and only pending requests settle |
| DataTable.RunKeepsConsistent | src/components/DataTable/DataTable.tsx:41-217 | the same holds after any sequence of events |
| DataTable.CrashIsFinal | src/components/DataTable/DataTable.tsx:153 | once a render throws, no event is available and any sequence of events leaves the table as it is |
| DataTable.ErrorAnswerCrashesTable | src/services/api.ts:67-76 | an answer of any status whose body is an object, not a list, settling after mounting, makes the next render throw |
| DataTable.OlderSettlementOverwritesNewer | src/hooks/useDataTable.ts:23-41 | after a header click, if a fetch started at mounting settles after the click's fetch, its data is shown under the new sort |
| DataTable.LoadingEndsAtFirstSettlement | src/hooks/useDataTable.ts:23-41 | with the two mount fetches in flight, the first settlement already clears loading while the other request is still pending |

## Left out

- Real HTTP is left out: `fetch`, the base URL, `URLSearchParams` percent-encoding, and JSON parsing and `JSON.stringify`. These are foreign calls. A response is an abstract status, a body (a decoded JSON value or an unparseable text) and the `X-Total-Count` header.
- Numbers.ToNumber: `Number` also accepts surrounding whitespace, fractions, exponents, hexadecimal and `Infinity`. These are read as NaN here, because the service writes the header as a plain integer.
- Api.ApiRequest: an `Error` that carries its own `status` or `data` property would keep them. Transport errors from `fetch` never carry them, so the model gives every Error status 500.
- The `...customConfig` spread in `apiRequest` is left out: no caller passes further options.
- `new Date().toISOString()` becomes the `now` parameter. The `toLocaleString()` rendering of `lastUpdated` is kept abstract as `LocalTimeCell`. Both depend on the clock and locale.
- The `useDebounce` timer is left out: it is timer-based, and only its callback firing after 1000 ms is modelled, as the `DebouncedSearch` event carrying the last text typed. The event may fire whenever the table is mounted, also more than once after one burst of typing or with no typing at all, so it over-approximates the timer, which fires once per burst.
- JavaScript numbers are modelled as unbounded integers. They are doubles: integers are exact only up to 2^53 in magnitude, and `String` writes exponent form from 1e21. Page, page size, ids, totals and `page * pageSize` never get near either bound, so neither rounding nor exponent text is modelled.
- Posts in a response are assumed to have all five fields. JSON values that are neither a list of posts, a post, an object nor null are not distinguished.
- The number of rows a successful fetch returns (at most the page size) depends on the service, not on this code, so it is not stated.
- React details are left out: element keys, styling, icons, `console.log`, and the doubled effects of development strict mode. These are presentation or tooling.
- `src/components/DataTable/PostModal.tsx` and `app/page.tsx` are not part of this model. They are form wiring and modal orchestration that call the same request functions. Their effect on the table is the refetch-flag flip, which is modelled.
- A "latest response wins" guard and a de-duplicating debounce contract are left out. The code implements neither; `LastSettlementWins` states what happens instead.

=== FILE: api.dfy ===
/** The request layer (src/services/api.ts): how the view state and write
    payloads become requests, and how the service's answers, or the lack of
    one, become resolved values and rejections.

    The network is not modelled: every call takes the `Outcome` the service
    produced for the request it describes. */
module Api {
  import opened Data
  import Numbers

  datatype Method = GET | POST | PATCH | DELETE

  /** A value inside a write body. */
  datatype Field = Text(text: string) | Number(number: int)

  /** The `init` handed to `fetch`. The write body is kept as the object that
      `JSON.stringify` serialises. */
  datatype RequestConfig = RequestConfig(httpMethod: Method, headers: map<string, string>, body: Option<map<string, Field>>)

  /** Endpoint path below the service's base URL, query pairs in order, and the config. */
  datatype Request = Request(endpoint: string, query: seq<(string, string)>, config: RequestConfig)

  /** A response body: JSON, or text on which `response.json()` rejects with a SyntaxError. */
  datatype Body = Parsed(json: Json) | Unparsable(syntaxError: string)

  datatype Response = Response(status: int, body: Body, totalCountHeader: Option<string>)

  /** `response.ok`. */
  predicate IsOk(r: Response) {
    200 <= r.status <= 299
  }

  /** What the service did with one request: it answered, or `fetch` itself
      rejected (a TypeError, which is an `Error`). */
  datatype Outcome = Received(response: Response) | TransportFailure(message: string)

  /** One call of the request layer: the request it sends and how its promise settles. */
  datatype Call<+T> = Call(request: Request, result: Settled<T>)

  const ContentType := "Content-Type"
  const JsonMediaType := "application/json"
  const UnexpectedErrorMessage := "An unexpected error occurred"
  const FallbackStatus := 500
  const PostsEndpoint := "/posts"
  const LastUpdated := "lastUpdated"

  /** The config `apiRequest` builds: the method defaults to GET, and the JSON
      content type is set unless the caller's headers override it. */
  function BuildConfig(httpMethod: Option<Method>, headers: map<string, string>, body: Option<map<string, Field>>): (config: RequestConfig)
    ensures httpMethod.None? ==> config.httpMethod == GET
    ensures httpMethod.Some? ==> config.httpMethod == httpMethod.value
    ensures config.headers.Keys == headers.Keys + {ContentType}
    ensures forall k :: k in headers ==> config.headers[k] == headers[k]
    ensures ContentType !in headers ==> config.headers[ContentType] == JsonMediaType
    ensures config.body == body
  {
    var m := match httpMethod
      case Some(m) => m
      case None => GET;
    RequestConfig(m, map[ContentType := JsonMediaType] + headers, body)
  }

  /** `response.json().catch(() => null)`. */
  function JsonOrNull(b: Body): Json {
    match b
    case Parsed(j) => j
    case Unparsable(_) => Null
  }

  /** `data?.message || "HTTP error! status: <status>"`: only an object
      carrying a non-empty message supplies one. */
  function HttpErrorMessage(r: Response): string {
    match r.body
    case Parsed(OtherObject(Some(m))) =>
      if m != "" then m else "HTTP error! status: " + Numbers.IntToDecimal(r.status)
    case _ => "HTTP error! status: " + Numbers.IntToDecimal(r.status)
  }

  /** How the `try` block of `apiRequest` settles, before its `catch` runs:
      a non-OK answer throws a plain object, not an `Error`. */
  function ApiRequestTry(outcome: Outcome): Settled<Json> {
    match outcome
    case TransportFailure(m) => Rejected(ErrorInstance(m))
    case Received(r) =>
      if IsOk(r) then Resolved(JsonOrNull(r.body))
      else Rejected(ApiErrorObject(ApiError(HttpErrorMessage(r), r.status)))
  }

  /** The `catch` block of `apiRequest`: an `Error` keeps its message and, as
      it carries no status, gets 500; anything else is replaced wholesale. */
  function NormalizeError(t: Thrown): ApiError {
    match t
    case ErrorInstance(m) => ApiError(m, FallbackStatus)
    case ApiErrorObject(_) => ApiError(UnexpectedErrorMessage, FallbackStatus)
  }

  /** `apiRequest(endpoint, {method, headers, body})`. Every rejection is a
      plain `ApiError` object with status 500: the status and message of a
      non-OK answer are caught by the function's own `catch` and lost. */
  function ApiRequest(endpoint: string, httpMethod: Option<Method>, headers: map<string, string>,
                      body: Option<map<string, Field>>, outcome: Outcome): (r: Call<Json>)
    ensures r.request.endpoint == endpoint && r.request.query == []
    ensures r.request.config == BuildConfig(httpMethod, headers, body)
    ensures r.result.Rejected? ==> r.result.reason.ApiErrorObject? && r.result.reason.error.status == FallbackStatus
    ensures outcome.Received? && IsOk(outcome.response) ==>
              r.result == Resolved(JsonOrNull(outcome.response.body))
    ensures outcome.Received? && !IsOk(outcome.response) ==>
              r.result == Rejected(ApiErrorObject(ApiError(UnexpectedErrorMessage, FallbackStatus)))
    ensures outcome.TransportFailure? ==>
              r.result == Rejected(ApiErrorObject(ApiError(outcome.message, FallbackStatus)))
  {
    var result := match ApiRequestTry(outcome)
      case Resolved(data) => Resolved(data)
      case Rejected(t) => Rejected(ApiErrorObject(NormalizeError(t)));
    Call(Request(endpoint, [], BuildConfig(httpMethod, headers, body)), result)
  }

  /** Two failing answers that differ in status and body settle `apiRequest`
      identically, although its `try` block threw different objects for them. */
  lemma HttpFailureDetailsLost(r1: Response, r2: Response, endpoint: string, httpMethod: Option<Method>, body: Option<map<string, Field>>)
    requires !IsOk(r1) && !IsOk(r2)
    ensures ApiRequestTry(Received(r1)) == Rejected(ApiErrorObject(ApiError(HttpErrorMessage(r1), r1.status)))
    ensures ApiRequest(endpoint, httpMethod, map[], body, Received(r1)).result
         == ApiRequest(endpoint, httpMethod, map[], body, Received(r2)).result
  {
  }

  /** The query `getPosts` sends, in order: page, page size, sort field,
      sort order, search text. The visible columns are not sent. */
  function PostsQuery(t: TableState): (q: seq<(string, string)>)
    ensures |q| == 5
    ensures [q[0].0, q[1].0, q[2].0, q[3].0, q[4].0] == ["_page", "_limit", "_sort", "_order", "q"]
    ensures Numbers.ToNumber(q[0].1) == Finite(t.page)
    ensures Numbers.ToNumber(q[1].1) == Finite(t.pageSize)
    ensures q[2].1 == t.sortBy && q[4].1 == t.search
    ensures q[3].1 == "asc" <==> t.sortOrder == Asc
    ensures q[3].1 == "desc" <==> t.sortOrder == Desc
  {
    Numbers.DecimalRoundTrip(t.page);
    Numbers.DecimalRoundTrip(t.pageSize);
    [ ("_page", Numbers.IntToDecimal(t.page)),
      ("_limit", Numbers.IntToDecimal(t.pageSize)),
      ("_sort", t.sortBy),
      ("_order", SortOrderName(t.sortOrder)),
      ("q", t.search) ]
  }

  /** `Number(response.headers.get("X-Total-Count") || 0)`: an absent or
      empty header counts as 0. */
  function TotalCount(header: Option<string>): JsNumber {
    match header
    case None => Finite(0)
    case Some(text) => if text == "" then Finite(0) else Numbers.ToNumber(text)
  }

  /** The header as the service writes it, `String(n)`, is read back as `n`;
      without the header the total is 0. */
  lemma TotalCountReadsHeader(n: int)
    ensures TotalCount(Some(Numbers.IntToDecimal(n))) == Finite(n)
    ensures TotalCount(None) == Finite(0)
  {
    Numbers.DecimalRoundTrip(n);
  }

  /** `getPosts(tableState)`. It calls `fetch` directly, not through
      `apiRequest`: its rejections are the `Error`s of `fetch` and of
      `response.json()`, and it never looks at the status. The page and page
      size are echoed from the request. */
  function GetPosts(t: TableState, outcome: Outcome): (r: Call<ApiResponse>)
    ensures r.request.endpoint == PostsEndpoint && r.request.query == PostsQuery(t)
    ensures r.request.config.httpMethod == GET && r.request.config.headers == map[] && r.request.config.body.None?
    ensures r.result.Rejected? ==> r.result.reason.ErrorInstance?
    ensures outcome.TransportFailure? ==> r.result == Rejected(ErrorInstance(outcome.message))
    ensures outcome.Received? && outcome.response.body.Unparsable? ==>
              r.result == Rejected(ErrorInstance(outcome.response.body.syntaxError))
    ensures outcome.Received? && outcome.response.body.Parsed? ==>
              r.result == Resolved(ApiResponse(outcome.response.body.json,
                                               TotalCount(outcome.response.totalCountHeader),
                                               t.page, t.pageSize))
  {
    var request := Request(PostsEndpoint, PostsQuery(t), RequestConfig(GET, map[], None));
    var result := match outcome
      case TransportFailure(m) => Rejected(ErrorInstance(m))
      case Received(resp) =>
        match resp.body
        case Unparsable(e) => Rejected(ErrorInstance(e))
        case Parsed(data) => Resolved(ApiResponse(data, TotalCount(resp.totalCountHeader), t.page, t.pageSize));
    Call(request, result)
  }

  /** The status of the answer plays no part in what `getPosts` resolves
      with, and the visible columns play no part in what it asks for. */
  lemma GetPostsIgnoresStatusAndColumns(t: TableState, resp: Response, status: int, columns: seq<string>)
    ensures GetPosts(t, Received(resp)).result == GetPosts(t, Received(resp.(status := status))).result
    ensures GetPosts(t, Received(resp)).request == GetPosts(t.(visibleColumns := columns), Received(resp)).request
  {
  }

  /** `{...fields, lastUpdated: now}`: every field is kept except that the
      timestamp is set to `now`, whatever the caller supplied for it. */
  function Stamp(fields: map<string, Field>, now: string): (body: map<string, Field>)
    ensures body.Keys == fields.Keys + {LastUpdated}
    ensures body[LastUpdated] == Text(now)
    ensures forall k :: k in fields && k != LastUpdated ==> body[k] == fields[k]
  {
    fields[LastUpdated := Text(now)]
  }

  /** Stamping an already stamped body again only replaces the timestamp: a
      post read back from the service and sent for update keeps all its
      other fields. */
  lemma RestampKeepsFields(fields: map<string, Field>, earlier: string, now: string)
    ensures Stamp(Stamp(fields, earlier), now) == Stamp(fields, now)
    ensures forall k :: k in fields && k != LastUpdated ==> Stamp(Stamp(fields, earlier), now)[k] == fields[k]
  {
  }

  /** `/posts/{id}`. */
  function PostPath(id: int): (path: string)
    ensures |path| > |PostsEndpoint| + 1
    ensures path[..|PostsEndpoint| + 1] == PostsEndpoint + "/"
    ensures Numbers.ToNumber(path[|PostsEndpoint| + 1..]) == Finite(id)
  {
    Numbers.DecimalRoundTrip(id);
    var path := PostsEndpoint + "/" + Numbers.IntToDecimal(id);
    assert path[|PostsEndpoint| + 1..] == Numbers.IntToDecimal(id);
    path
  }

  /** `createPost(post)`, with `new Date().toISOString()` passed in as `now`. */
  function CreatePost(fields: map<string, Field>, now: string, outcome: Outcome): (r: Call<Json>)
    ensures r.request.endpoint == PostsEndpoint && r.request.config.httpMethod == POST
    ensures r.request.query == [] && r.request.config.headers == map[ContentType := JsonMediaType]
    ensures r.request.config.body == Some(Stamp(fields, now))
    ensures r.result.Rejected? ==> r.result.reason.ApiErrorObject?
    ensures outcome.Received? && IsOk(outcome.response) <==> r.result.Resolved?
    ensures outcome.Received? && IsOk(outcome.response) ==> r.result == Resolved(JsonOrNull(outcome.response.body))
  {
    ApiRequest(PostsEndpoint, Some(POST), map[], Some(Stamp(fields, now)), outcome)
  }

  /** `updatePost(id, post)`, with the timestamp passed in as `now`. */
  function UpdatePost(id: int, fields: map<string, Field>, now: string, outcome: Outcome): (r: Call<Json>)
    ensures r.request.endpoint == PostPath(id) && r.request.config.httpMethod == PATCH
    ensures r.request.query == [] && r.request.config.headers == map[ContentType := JsonMediaType]
    ensures r.request.config.body == Some(Stamp(fields, now))
    ensures r.result.Rejected? ==> r.result.reason.ApiErrorObject?
    ensures outcome.Received? && IsOk(outcome.response) <==> r.result.Resolved?
    ensures outcome.Received? && IsOk(outcome.response) ==> r.result == Resolved(JsonOrNull(outcome.response.body))
  {
    ApiRequest(PostPath(id), Some(PATCH), map[], Some(Stamp(fields, now)), outcome)
  }

  /** `deletePost(id)`: resolves with nothing. */
  function DeletePost(id: int, outcome: Outcome): (r: Call<()>)
    ensures r.request.endpoint == PostPath(id) && r.request.config.httpMethod == DELETE
    ensures r.request.query == [] && r.request.config.headers == map[ContentType := JsonMediaType]
    ensures r.request.config.body.None?
    ensures r.result.Rejected? ==> r.result.reason.ApiErrorObject?
    ensures outcome.Received? && IsOk(outcome.response) <==> r.result.Resolved?
  {
    var call := ApiRequest(PostPath(id), Some(DELETE), map[], None, outcome);
    var result := match call.result
      case Resolved(_) => Resolved(())
      case Rejected(t) => Rejected(t);
    Call(call.request, result)
  }
}

=== FILE: controller.dfy ===
/** The table view-state controller (src/hooks/useDataTable.ts): the view
    state and its four handlers, the fetch status machine, and the write
    handlers that refetch on success.

    Asynchrony is made explicit: a fetch is started by `StartFetch`, which
    also records the view state the request is for, and ends, possibly much
    later, with `SettleFetch` applied to how `getPosts` settled. Nothing ties
    a settlement to the request it answers: the hook keeps no request
    token, so whichever settlement is applied last wins. */
module TableController {
  import opened Data
  import Api

  const DefaultPageSize := 10
  const DefaultSortBy := "lastUpdated"
  const DefaultVisibleColumns: seq<string> := ["title", "author", "lastUpdated"]
  /** The message shown for a rejection that is not an `Error`. */
  const GenericErrorMessage := "An error occurred"

  const InitialTableState := TableState(1, DefaultPageSize, DefaultSortBy, Desc, "", DefaultVisibleColumns)

  /** Everything the hook holds: the view state, the status flags and the
      last fetched page of data with its total. */
  datatype Controller = Controller(table: TableState, loading: bool, error: Option<string>, data: Json, total: JsNumber)

  /** The hook's state before its first effect runs. */
  function InitialController(): (c: Controller)
    ensures c.table.page == 1 && c.table.pageSize == 10
    ensures c.table.sortBy == "lastUpdated" && c.table.sortOrder == Desc
    ensures c.table.search == "" && c.table.visibleColumns == ["title", "author", "lastUpdated"]
    ensures !c.loading && c.error == None && c.data == PostList([]) && c.total == Finite(0)
  {
    Controller(InitialTableState, false, None, PostList([]), Finite(0))
  }

  // ---------------------------------------------------------------------
  // The view-state handlers

  /** `handlePageChange(page)`: no bounds check. */
  function PageChange(t: TableState, page: int): (r: TableState)
    ensures r.page == page
    ensures r.(page := t.page) == t
  {
    t.(page := page)
  }

  /** `handleSortChange(field)`: a second click on an ascending column sorts
      it descending; every other click sorts ascending. */
  function SortChange(t: TableState, field: string): (r: TableState)
    ensures r.sortBy == field
    ensures r.sortOrder == Desc <==> t.sortBy == field && t.sortOrder == Asc
    ensures t.sortBy != field ==> r.sortOrder == Asc
    ensures r.(sortBy := t.sortBy, sortOrder := t.sortOrder) == t
  {
    t.(sortBy := field, sortOrder := if t.sortBy == field && t.sortOrder == Asc then Desc else Asc)
  }

  /** `handleSearchChange(search)`: a new search always starts on page 1. */
  function SearchChange(t: TableState, search: string): (r: TableState)
    ensures r.search == search && r.page == 1
    ensures r.(page := t.page, search := t.search) == t
  {
    t.(search := search, page := 1)
  }

  /** `handleColumnVisibilityChange(columns)`. */
  function ColumnVisibilityChange(t: TableState, columns: seq<string>): (r: TableState)
    ensures r.visibleColumns == columns
    ensures r.(visibleColumns := t.visibleColumns) == t
  {
    t.(visibleColumns := columns)
  }

  /** `n` consecutive clicks on the header of `field`. */
  function SortClicks(t: TableState, field: string, n: nat): TableState
    decreases n
  {
    if n == 0 then t else SortChange(SortClicks(t, field, n - 1), field)
  }

  /** Clicking one header repeatedly alternates its order, starting from
      ascending when the table was sorted by another field. */
  lemma {:induction false} SortClicksAlternate(t: TableState, field: string, n: nat)
    requires n >= 1
    ensures SortClicks(t, field, n).sortBy == field
    ensures SortClicks(t, field, n + 1).sortOrder != SortClicks(t, field, n).sortOrder
    ensures SortClicks(t, field, n + 2) == SortClicks(t, field, n)
    ensures t.sortBy != field ==> SortClicks(t, field, n).sortOrder == (if n % 2 == 1 then Asc else Desc)
    decreases n
  {
    if n > 1 {
      SortClicksAlternate(t, field, n - 1);
    }
  }

  /** The handlers, as the events that drive the view state. */
  datatype Action =
    | ChangePage(page: int)
    | ChangeSort(field: string)
    | ChangeSearch(search: string)
    | ChangeColumns(columns: seq<string>)

  function Reduce(t: TableState, a: Action): TableState {
    match a
    case ChangePage(p) => PageChange(t, p)
    case ChangeSort(f) => SortChange(t, f)
    case ChangeSearch(s) => SearchChange(t, s)
    case ChangeColumns(cs) => ColumnVisibilityChange(t, cs)
  }

  /** Only a page change or a new search moves the page, and no handler
      touches the page size. */
  lemma ReducePreservesPageSize(t: TableState, a: Action)
    ensures Reduce(t, a).pageSize == t.pageSize
    ensures !a.ChangePage? && !a.ChangeSearch? ==> Reduce(t, a).page == t.page
    ensures a.ChangeSearch? ==> Reduce(t, a).page == 1
  {
  }

  // ---------------------------------------------------------------------
  // The fetch status machine

  /** `err instanceof Error ? err.message : "An error occurred"`. */
  function ErrorMessage(t: Thrown): string {
    match t
    case ErrorInstance(m) => m
    case ApiErrorObject(_) => GenericErrorMessage
  }

  /** The synchronous start of `fetchData`: loading, no error, and the last
      page of data stays visible. */
  function StartFetch(c: Controller): (r: Controller)
    ensures r.loading && r.error == None
    ensures r.(loading := c.loading, error := c.error) == c
  {
    c.(loading := true, error := None)
  }

  /** The end of `fetchData`, once `getPosts` has settled: data and total are
      replaced on success; on failure they are kept and the error is set.
      Loading is over either way. */
  function SettleFetch(c: Controller, result: Settled<ApiResponse>): (r: Controller)
    ensures !r.loading && r.table == c.table
    ensures result.Resolved? ==>
              r.data == result.value.data && r.total == result.value.total && r.error == c.error
    ensures result.Rejected? ==>
              r.data == c.data && r.total == c.total && r.error == Some(ErrorMessage(result.reason))
  {
    match result
    case Resolved(resp) => c.(data := resp.data, total := resp.total, loading := false)
    case Rejected(t) => c.(error := Some(ErrorMessage(t)), loading := false)
  }

  /** One uninterrupted fetch for the current view state, from start to
      settlement, against what the service did with the request. */
  function Fetch(c: Controller, outcome: Api.Outcome): Controller {
    SettleFetch(StartFetch(c), Api.GetPosts(c.table, outcome).result)
  }

  /** A completed fetch leaves the view state alone and ends not loading. A
      parseable answer, whatever its status, replaces data and total and
      leaves no error; a transport failure or an unparseable body leaves the
      previous data and total in place and shows that `Error`'s message. */
  lemma FetchCycle(c: Controller, outcome: Api.Outcome)
    ensures Fetch(c, outcome).table == c.table && !Fetch(c, outcome).loading
    ensures outcome.Received? && outcome.response.body.Parsed? ==>
              && Fetch(c, outcome).error == None
              && Fetch(c, outcome).data == outcome.response.body.json
              && Fetch(c, outcome).total == Api.TotalCount(outcome.response.totalCountHeader)
    ensures outcome.TransportFailure? ==>
              Fetch(c, outcome) == c.(loading := false, error := Some(outcome.message))
    ensures outcome.Received? && outcome.response.body.Unparsable? ==>
              Fetch(c, outcome) == c.(loading := false, error := Some(outcome.response.body.syntaxError))
  {
  }

  /** What a handler call does to the hook: the view state is replaced by a
      new object, so `fetchData` is rebuilt and the hook's effect starts a
      fetch for the new state, even when no field changed value. */
  datatype HookStep = HookStep(next: Controller, fetches: seq<TableState>)

  function Dispatch(c: Controller, a: Action): (r: HookStep)
    ensures r.next.table == Reduce(c.table, a)
    ensures r.fetches == [r.next.table]
    ensures r.next.loading && r.next.error == None
    ensures r.next.data == c.data && r.next.total == c.total
  {
    var next := StartFetch(c.(table := Reduce(c.table, a)));
    HookStep(next, [next.table])
  }

  /** Hiding or showing a column, which sends nothing new to the service,
      still fetches again, with the very same query as before. */
  lemma ColumnChangeRefetchesSameQuery(c: Controller, columns: seq<string>)
    ensures |Dispatch(c, ChangeColumns(columns)).fetches| == 1
    ensures Api.PostsQuery(Dispatch(c, ChangeColumns(columns)).fetches[0]) == Api.PostsQuery(c.table)
  {
  }

  /** No stale-response guard: a fetch is started for one view state, a
      handler changes the state and starts a second fetch, the second
      settles first and the first settles last. The table then shows the
      data of the first, older, request under the newer view state. */
  lemma LastSettlementWins(c: Controller, a: Action, older: Api.Outcome, newer: Api.Outcome)
    requires older.Received? && older.response.body.Parsed?
    requires newer.Received? && newer.response.body.Parsed?
    ensures var first := StartFetch(c);
            var step := Dispatch(first, a);
            var afterNewer := SettleFetch(step.next, Api.GetPosts(step.fetches[0], newer).result);
            var afterOlder := SettleFetch(afterNewer, Api.GetPosts(c.table, older).result);
            && afterOlder.table == Reduce(c.table, a)
            && afterOlder.data == older.response.body.json
            && afterOlder.total == Api.TotalCount(older.response.totalCountHeader)
            && !afterOlder.loading
  {
  }

  // ---------------------------------------------------------------------
  // The write handlers

  /** The common shape of the write handlers. A handler awaits the write
      while other handlers and settlements may run, so two states matter:
      `issuedFor`, the view state of the render the handler came from, whose
      `fetchData` closure it calls on success, and `c`, the controller as it
      is when the write settles, on which `setLoading` and `setError` act.
      On success a fetch for `issuedFor` is started; on failure only the
      error is set. */
  function HandleWrite<T>(c: Controller, issuedFor: TableState, result: Settled<T>): (r: HookStep)
    ensures result.Resolved? ==> r.next == StartFetch(c) && r.fetches == [issuedFor]
    ensures result.Rejected? ==> r.next == c.(error := Some(ErrorMessage(result.reason))) && r.fetches == []
  {
    match result
    case Resolved(_) => HookStep(StartFetch(c), [issuedFor])
    case Rejected(t) => HookStep(c.(error := Some(ErrorMessage(t))), [])
  }

  /** A write either succeeds and refetches the view state the handler was
      called under, or fails and shows the generic message: the request
      layer only ever rejects with plain objects, so no status or service
      message reaches the user. */
  predicate WriteSettled(c: Controller, issuedFor: TableState, r: HookStep, succeeded: bool) {
    && (succeeded ==> r.fetches == [issuedFor] && r.next == StartFetch(c))
    && (!succeeded ==> r.fetches == [] && r.next == c.(error := Some(GenericErrorMessage)))
  }

  /** `handleCreatePost(post)`, with the timestamp passed in as `now`. */
  function HandleCreatePost(c: Controller, issuedFor: TableState, fields: map<string, Api.Field>, now: string, outcome: Api.Outcome): (r: HookStep)
    ensures WriteSettled(c, issuedFor, r, outcome.Received? && Api.IsOk(outcome.response))
  {
    HandleWrite(c, issuedFor, Api.CreatePost(fields, now, outcome).result)
  }

  /** `handleUpdatePost(id, post)`, with the timestamp passed in as `now`. */
  function HandleUpdatePost(c: Controller, issuedFor: TableState, id: int, fields: map<string, Api.Field>, now: string, outcome: Api.Outcome): (r: HookStep)
    ensures WriteSettled(c, issuedFor, r, outcome.Received? && Api.IsOk(outcome.response))
  {
    HandleWrite(c, issuedFor, Api.UpdatePost(id, fields, now, outcome).result)
  }

  /** `handleDeletePost(id)`. */
  function HandleDeletePost(c: Controller, issuedFor: TableState, id: int, outcome: Api.Outcome): (r: HookStep)
    ensures WriteSettled(c, issuedFor, r, outcome.Received? && Api.IsOk(outcome.response))
  {
    HandleWrite(c, issuedFor, Api.DeletePost(id, outcome).result)
  }

  /** A write issued under one view state, during which the user moves on to
      another, refetches the old one: once that refetch settles, the table
      shows the data for the view state the write was issued under, while
      the controller holds the newer one. */
  lemma WriteRefetchesCallTimeState(c: Controller, a: Action, now: string, fields: map<string, Api.Field>,
                                    written: Api.Response, answer: Api.Response)
    requires Api.IsOk(written) && answer.body.Parsed?
    ensures var moved := Dispatch(c, a).next;
            var w := HandleCreatePost(moved, c.table, fields, now, Api.Received(written));
            var settled := SettleFetch(w.next, Api.GetPosts(w.fetches[0], Api.Received(answer)).result);
            && w.fetches == [c.table]
            && Api.PostsQuery(w.fetches[0]) == Api.PostsQuery(c.table)
            && settled.table == Reduce(c.table, a)
            && settled.data == answer.body.json
            && !settled.loading
  {
  }

  /** Deleting a record the service does not have (it answers 404) leaves
      the view state, data, total and loading flag as they were and shows
      the generic message; no refetch is started. */
  lemma DeleteMissingRecord(c: Controller, issuedFor: TableState, id: int, body: Api.Body, header: Option<string>)
    ensures var r := HandleDeletePost(c, issuedFor, id, Api.Received(Api.Response(404, body, header)));
            && r.fetches == []
            && r.next.table == c.table && r.next.data == c.data && r.next.total == c.total
            && r.next.loading == c.loading
            && r.next.error == Some("An error occurred")
  {
  }
}

=== FILE: data.dfy ===
/** The records the table exchanges with the posts service, and the view state
    the table is driven by (src/types/data.ts). */
module Data {

  datatype Option<+T> = None | Some(value: T)

  /** One row of the remote collection. */
  datatype Post = Post(id: int, title: string, author: string, body: string, lastUpdated: string)

  /** `sortOrder` is restricted to "asc" | "desc". */
  datatype SortOrder = Asc | Desc

  function SortOrderName(o: SortOrder): string
  {
    match o
    case Asc => "asc"
    case Desc => "desc"
  }

  /** What slice of the collection the user is looking at. `page` and
      `pageSize` are plain numbers: nothing bounds them. */
  datatype TableState = TableState(
    page: int,
    pageSize: int,
    sortBy: string,
    sortOrder: SortOrder,
    search: string,
    visibleColumns: seq<string>)

  /** A JavaScript number as `Number(...)` yields it for header text: an
      integer or NaN. Every comparison with NaN is false. The integer is
      unbounded, whereas a JavaScript number is a double: exact only up to
      2^53 in magnitude. */
  datatype JsNumber = Finite(n: int) | NaN

  /** A decoded JSON body, as far as the table distinguishes them. */
  datatype Json =
    | PostList(posts: seq<Post>)
    | PostObject(post: Post)
    | OtherObject(message: Option<string>)
    | Null

  /** The value `getPosts` resolves with. */
  datatype ApiResponse = ApiResponse(data: Json, total: JsNumber, page: int, pageSize: int)

  datatype ApiError = ApiError(message: string, status: int)

  /** What a rejected promise carries: an instance of `Error`, or a plain
      object shaped like `ApiError` (which is not an `Error`). */
  datatype Thrown = ErrorInstance(message: string) | ApiErrorObject(error: ApiError)

  /** A settled promise. */
  datatype Settled<+T> = Resolved(value: T) | Rejected(reason: Thrown)
}

=== FILE: datatable.dfy ===
/** The table component (src/components/DataTable/DataTable.tsx): the column
    toggle, which columns are drawn and in which order, the pagination
    arithmetic and buttons, the sort indicator, what the component shows,
    and the component as a state machine over the events a user, the parent
    page and the service produce. */
module DataTable {
  import opened Data
  import Api
  import TableController

  // ---------------------------------------------------------------------
  // Ordered sub-sequences

  /** `a` is `b` with some elements left out, the rest kept in order. */
  predicate IsSubsequence<T(==)>(a: seq<T>, b: seq<T>)
    decreases |b|
  {
    if a == [] then true
    else if b == [] then false
    else (a[0] == b[0] && IsSubsequence(a[1..], b[1..])) || IsSubsequence(a, b[1..])
  }

  // ---------------------------------------------------------------------
  // Columns

  datatype Column = Column(key: string, heading: string)

  /** The columns in the order the table always draws them. */
  const Columns: seq<Column> := [
    Column("title", "Title"),
    Column("author", "Author"),
    Column("body", "Content"),
    Column("lastUpdated", "Last Updated")
  ]

  /** `selected.filter((col) => col !== column)`. */
  function RemoveAll(selected: seq<string>, column: string): (r: seq<string>)
    ensures column !in r
    ensures forall c :: c != column ==> (c in r <==> c in selected)
    ensures IsSubsequence(r, selected)
    ensures column !in selected ==> r == selected
    ensures |r| == |selected| - multiset(selected)[column]
    decreases |selected|
  {
    if selected == [] then []
    else if selected[0] == column then
      assert selected == [selected[0]] + selected[1..];
      assert multiset(selected) == multiset([selected[0]]) + multiset(selected[1..]);
      RemoveAll(selected[1..], column)
    else
      var rest := RemoveAll(selected[1..], column);
      assert selected == [selected[0]] + selected[1..];
      assert multiset(selected) == multiset([selected[0]]) + multiset(selected[1..]);
      assert ([selected[0]] + rest)[1..] == rest;
      [selected[0]] + rest
  }

  /** `toggleColumn(column)`: a shown column is removed (every occurrence of
      it), a hidden one is appended at the end. Only that column's
      membership changes. */
  function ToggleColumn(selected: seq<string>, column: string): (r: seq<string>)
    ensures column in r <==> column !in selected
    ensures forall c :: c != column ==> (c in r <==> c in selected)
    ensures column in selected ==> IsSubsequence(r, selected) && |r| == |selected| - multiset(selected)[column]
    ensures column !in selected ==> |r| == |selected| + 1 && r[..|selected|] == selected
  {
    if column in selected then RemoveAll(selected, column) else selected + [column]
  }

  /** Removing a column just appended restores the list it was appended to. */
  lemma {:induction false} RemoveAppended(selected: seq<string>, column: string)
    requires column !in selected
    ensures RemoveAll(selected + [column], column) == selected
    decreases |selected|
  {
    if selected == [] {
      assert [column][1..] == [];
    } else {
      assert (selected + [column])[1..] == selected[1..] + [column];
      RemoveAppended(selected[1..], column);
    }
  }

  /** Toggling a hidden column twice gives back exactly the original list;
      toggling a shown one twice restores which columns are shown, although
      the column then moves to the end. */
  lemma ToggleTwice(selected: seq<string>, column: string)
    ensures column !in selected ==> ToggleColumn(ToggleColumn(selected, column), column) == selected
    ensures forall c :: c in ToggleColumn(ToggleColumn(selected, column), column) <==> c in selected
  {
    if column !in selected {
      RemoveAppended(selected, column);
    }
  }

  /** The columns of `cols` whose key is selected, in the order of `cols`. */
  function SelectColumns(cols: seq<Column>, selected: seq<string>): (r: seq<Column>)
    ensures forall col :: col in r <==> col in cols && col.key in selected
    ensures IsSubsequence(r, cols)
    decreases |cols|
  {
    if cols == [] then []
    else if cols[0].key in selected then
      var rest := SelectColumns(cols[1..], selected);
      assert cols == [cols[0]] + cols[1..];
      assert ([cols[0]] + rest)[1..] == rest;
      [cols[0]] + rest
    else
      SelectColumns(cols[1..], selected)
  }

  /** The drawn columns: the fixed list, filtered by the selection. */
  function VisibleColumns(selected: seq<string>): seq<Column> {
    SelectColumns(Columns, selected)
  }

  /** Which columns are drawn, and in which order, depends only on which
      keys are selected, never on the order or repetition of the selection. */
  lemma {:induction false} SelectionOrderIrrelevant(cols: seq<Column>, a: seq<string>, b: seq<string>)
    requires forall k :: k in a <==> k in b
    ensures SelectColumns(cols, a) == SelectColumns(cols, b)
    decreases |cols|
  {
    if cols != [] {
      SelectionOrderIrrelevant(cols[1..], a, b);
    }
  }

  /** Every element of a sub-sequence is an element of the whole. */
  lemma {:induction false} SubsequenceMember<T>(a: seq<T>, b: seq<T>, i: nat)
    requires IsSubsequence(a, b) && i < |a|
    ensures exists k :: 0 <= k < |b| && b[k] == a[i]
    decreases |b|
  {
    if a[0] == b[0] && IsSubsequence(a[1..], b[1..]) {
      if i == 0 {
        assert b[0] == a[0];
      } else {
        SubsequenceMember(a[1..], b[1..], i - 1);
        var k :| 0 <= k < |b[1..]| && b[1..][k] == a[1..][i - 1];
        assert b[k + 1] == a[i];
      }
    } else {
      SubsequenceMember(a, b[1..], i);
      var k :| 0 <= k < |b[1..]| && b[1..][k] == a[i];
      assert b[k + 1] == a[i];
    }
  }

  /** No two elements share a key. */
  predicate DistinctKeys(cols: seq<Column>) {
    forall i, j :: 0 <= i < j < |cols| ==> cols[i].key != cols[j].key
  }

  /** Leaving columns out of a list with distinct keys keeps them distinct. */
  lemma {:induction false} SubsequenceKeepsDistinctKeys(a: seq<Column>, b: seq<Column>)
    requires IsSubsequence(a, b) && DistinctKeys(b)
    ensures DistinctKeys(a)
    decreases |b|
  {
    if a != [] {
      assert DistinctKeys(b[1..]) by {
        forall i, j | 0 <= i < j < |b[1..]|
          ensures b[1..][i].key != b[1..][j].key
        {
          assert b[1..][i] == b[i + 1] && b[1..][j] == b[j + 1];
        }
      }
      if a[0] == b[0] && IsSubsequence(a[1..], b[1..]) {
        SubsequenceKeepsDistinctKeys(a[1..], b[1..]);
        forall i, j | 0 <= i < j < |a|
          ensures a[i].key != a[j].key
        {
          if i == 0 {
            SubsequenceMember(a[1..], b[1..], j - 1);
            var k :| 0 <= k < |b[1..]| && b[1..][k] == a[1..][j - 1];
            assert b[k + 1] == a[j];
          } else {
            assert a[i] == a[1..][i - 1] && a[j] == a[1..][j - 1];
          }
        }
      } else {
        SubsequenceKeepsDistinctKeys(a, b[1..]);
      }
    }
  }

  // ---------------------------------------------------------------------
  // Pagination

  /** The first row number of "Showing a to b of n". */
  function RangeStart(t: TableState): int {
    (t.page - 1) * t.pageSize + 1
  }

  /** `Math.min(page * pageSize, total)`: NaN when the total is. */
  function RangeEnd(t: TableState, total: JsNumber): (r: JsNumber)
    ensures r.NaN? <==> total.NaN?
    ensures total.Finite? ==> r.n <= total.n && r.n <= t.page * t.pageSize
    ensures total.Finite? ==> r.n == total.n || r.n == t.page * t.pageSize
  {
    match total
    case NaN => NaN
    case Finite(n) => Finite(if t.page * t.pageSize <= n then t.page * t.pageSize else n)
  }

  /** Previous is disabled on page 1 only. */
  predicate PreviousDisabled(t: TableState) {
    t.page == 1
  }

  /** Next is disabled once the page reaches the total; no comparison with
      NaN holds, so a NaN total never disables it. */
  predicate NextDisabled(t: TableState, total: JsNumber) {
    total.Finite? && t.page * t.pageSize >= total.n
  }

  /** Next is disabled exactly when the displayed range ends at the total,
      and while it is enabled the current page is full. */
  lemma NextDisabledIffRangeReachesTotal(t: TableState, n: int)
    ensures NextDisabled(t, Finite(n)) <==> RangeEnd(t, Finite(n)) == Finite(n)
    ensures !NextDisabled(t, Finite(n)) ==> RangeEnd(t, Finite(n)) == Finite(t.page * t.pageSize)
    ensures !NextDisabled(t, NaN)
  {
  }

  /** On a full page the range covers exactly one page of rows; an empty
      result on page 1 reads "Showing 1 to 0 of 0". */
  lemma RangeLength(t: TableState, n: int)
    requires t.page >= 1 && t.pageSize >= 0
    ensures t.page * t.pageSize <= n ==> RangeEnd(t, Finite(n)).n - RangeStart(t) + 1 == t.pageSize
    ensures t.page == 1 && n == 0 ==> RangeStart(t) == 1 && RangeEnd(t, Finite(n)) == Finite(0)
  {
    assert t.page * t.pageSize - (t.page - 1) * t.pageSize == t.pageSize;
  }

  // ---------------------------------------------------------------------
  // Sort indicator and header

  datatype Arrow = Up | Down

  /** The arrow drawn next to a header label: only on the sorted column,
      pointing up for ascending. */
  function SortIndicator(t: TableState, key: string): (r: Option<Arrow>)
    ensures r.Some? <==> key == t.sortBy
    ensures r.Some? ==> (r.value == Up <==> t.sortOrder == Asc)
  {
    if t.sortBy != key then None
    else if t.sortOrder == Asc then Some(Up)
    else Some(Down)
  }

  datatype HeaderCell = HeaderCell(column: Column, indicator: Option<Arrow>)

  /** The header row, without the trailing Actions cell. */
  function HeaderRow(t: TableState, cols: seq<Column>): (r: seq<HeaderCell>)
    ensures |r| == |cols|
    ensures forall i :: 0 <= i < |r| ==> r[i].column == cols[i]
    ensures forall i :: 0 <= i < |r| ==> (r[i].indicator.Some? <==> cols[i].key == t.sortBy)
    ensures forall i :: 0 <= i < |r| && r[i].indicator.Some? ==> (r[i].indicator.value == Up <==> t.sortOrder == Asc)
  {
    seq(|cols|, i requires 0 <= i < |cols| => HeaderCell(cols[i], SortIndicator(t, cols[i].key)))
  }

  /** The drawn columns never repeat a key, whatever the selection. */
  lemma VisibleColumnsHaveDistinctKeys(selected: seq<string>)
    ensures DistinctKeys(VisibleColumns(selected))
  {
    SubsequenceKeepsDistinctKeys(VisibleColumns(selected), Columns);
  }

  /** Over columns with distinct keys, such as the drawn ones, at most one
      header carries an arrow. */
  lemma AtMostOneIndicator(t: TableState, cols: seq<Column>)
    requires DistinctKeys(cols)
    ensures var h := HeaderRow(t, cols);
            forall i, j :: 0 <= i < j < |h| ==> h[i].indicator.None? || h[j].indicator.None?
  {
  }

  // ---------------------------------------------------------------------
  // What the component shows

  /** A table cell; `lastUpdated` is shown through the locale's date
      formatting, which is kept abstract. */
  datatype Cell = TextCell(text: string) | LocalTimeCell(iso: string)

  function CellFor(p: Post, key: string): Cell {
    if key == "title" then TextCell(p.title)
    else if key == "author" then TextCell(p.author)
    else if key == "body" then TextCell(p.body)
    else LocalTimeCell(p.lastUpdated)
  }

  function RowCells(p: Post, cols: seq<Column>): (r: seq<Cell>)
    ensures |r| == |cols|
  {
    seq(|cols|, i requires 0 <= i < |cols| => CellFor(p, cols[i].key))
  }

  /** The table body: a spinner row spanning every selected column and the
      Actions column, or the data rows. */
  datatype TableBody = Spinner(colSpan: int) | Rows(rows: seq<seq<Cell>>)

  /** What is on screen. `Crashed` is a render that threw: the data is not a
      list, `data.map` throws, and with no error boundary nothing is drawn
      and the tree is unmounted. */
  datatype Screen =
    | ErrorPanel(message: string)
    | Crashed
    | TablePanel(header: seq<HeaderCell>, body: TableBody, first: int, last: JsNumber,
                 total: JsNumber, previousDisabled: bool, nextDisabled: bool)

  /** What the component returns. `if (error)` tests truthiness, so an empty
      error message still shows the table. */
  function Render(c: TableController.Controller, selected: seq<string>): (s: Screen)
    ensures s.ErrorPanel? <==> c.error.Some? && c.error.value != ""
    ensures s.ErrorPanel? ==> s.message == c.error.value
    ensures s.Crashed? <==> !s.ErrorPanel? && !c.loading && !c.data.PostList?
    ensures s.TablePanel? ==> s.header == HeaderRow(c.table, VisibleColumns(selected))
    ensures s.TablePanel? && c.loading ==> s.body == Spinner(|selected| + 1)
    ensures s.TablePanel? && !c.loading ==> s.body.Rows?
    ensures s.TablePanel? && s.body.Rows? ==>
              && |s.body.rows| == |c.data.posts|
              && forall i :: 0 <= i < |s.body.rows| ==>
                   |s.body.rows[i]| == |s.header| && s.body.rows[i] == RowCells(c.data.posts[i], VisibleColumns(selected))
    ensures s.TablePanel? ==>
              && s.first == RangeStart(c.table) && s.last == RangeEnd(c.table, c.total) && s.total == c.total
              && (s.previousDisabled <==> c.table.page == 1)
              && (s.nextDisabled <==> NextDisabled(c.table, c.total))
  {
    if c.error.Some? && c.error.value != "" then ErrorPanel(c.error.value)
    else if !c.loading && !c.data.PostList? then Crashed
    else
      var cols := VisibleColumns(selected);
      var body :=
        if c.loading then Spinner(|selected| + 1)
        else Rows(seq(|c.data.posts|, i requires 0 <= i < |c.data.posts| => RowCells(c.data.posts[i], cols)));
      TablePanel(HeaderRow(c.table, cols), body, RangeStart(c.table), RangeEnd(c.table, c.total),
                 c.total, PreviousDisabled(c.table), NextDisabled(c.table, c.total))
  }

  // ---------------------------------------------------------------------
  // The component as a state machine

  /** The controller the component owns, its own state (the selected columns
      and the text in the search box), the parent's refetch flag, and the
      view states of the fetches started and not yet settled, oldest first. */
  datatype Component = Component(
    ctrl: TableController.Controller,
    selectedColumns: seq<string>,
    searchTerm: string,
    refetchTrigger: bool,
    inFlight: seq<TableState>)

  /** What can happen to a mounted table. `DebouncedSearch` is the debounced
      callback firing with the text it was last given, which is the text in
      the search box; `Settle` is the `i`-th pending `getPosts` call settling
      with the service's outcome. */
  datatype Event =
    | ClickPrevious
    | ClickNext
    | ClickHeader(key: string)
    | ToggleColumnBox(key: string)
    | TypeSearch(text: string)
    | DebouncedSearch(text: string)
    | FlipRefetchTrigger
    | Settle(index: nat, outcome: Api.Outcome)

  /** The first render: both effects that depend on `fetchData` run, each
      starting a fetch for the initial view state; the component's own state
      is seeded from the controller's. */
  function Mount(refetchTrigger: bool): (comp: Component)
    ensures comp.selectedColumns == comp.ctrl.table.visibleColumns
    ensures comp.searchTerm == comp.ctrl.table.search
    ensures comp.ctrl.loading && comp.ctrl.error == None
    ensures comp.inFlight == [comp.ctrl.table, comp.ctrl.table]
    ensures comp.ctrl.table == TableController.InitialController().table
    ensures comp.ctrl.data == PostList([]) && comp.ctrl.total == Finite(0)
    ensures comp.refetchTrigger == refetchTrigger
  {
    var c := TableController.StartFetch(TableController.InitialController());
    Component(c, c.table.visibleColumns, c.table.search, refetchTrigger, [c.table, c.table])
  }

  /** A controller handler has run. Its new view state object rebuilds
      `fetchData`, so the hook's effect and the component's effect on
      `[refetchTrigger, fetchData]` each start a fetch for it. */
  function AfterHandler(comp: Component, a: TableController.Action): (r: Component)
    ensures r.ctrl.table == TableController.Reduce(comp.ctrl.table, a)
    ensures r.inFlight == comp.inFlight + [r.ctrl.table, r.ctrl.table]
    ensures r.ctrl.loading && r.ctrl.error == None
    ensures r.ctrl.data == comp.ctrl.data && r.ctrl.total == comp.ctrl.total
    ensures r.selectedColumns == comp.selectedColumns
    ensures r.searchTerm == comp.searchTerm && r.refetchTrigger == comp.refetchTrigger
  {
    var step := TableController.Dispatch(comp.ctrl, a);
    comp.(ctrl := TableController.StartFetch(step.next),
          inFlight := comp.inFlight + step.fetches + [step.next.table])
  }

  /** Whether the control an event comes from is on screen and enabled. The
      error panel replaces every control, so while it is shown only the
      parent, the debounce timer and the service can act. A crashed render
      unmounts the tree, after which nothing acts on the table at all. */
  predicate Available(comp: Component, e: Event) {
    var screen := Render(comp.ctrl, comp.selectedColumns);
    match e
    case ClickPrevious => screen.TablePanel? && !screen.previousDisabled
    case ClickNext => screen.TablePanel? && !screen.nextDisabled
    case ClickHeader(key) => screen.TablePanel? && exists col :: col in VisibleColumns(comp.selectedColumns) && col.key == key
    case ToggleColumnBox(key) => screen.TablePanel? && exists col :: col in Columns && col.key == key
    case TypeSearch(_) => screen.TablePanel?
    case DebouncedSearch(text) => !screen.Crashed? && text == comp.searchTerm
    case FlipRefetchTrigger => !screen.Crashed?
    case Settle(i, _) => !screen.Crashed? && i < |comp.inFlight|
  }

  function Step(comp: Component, e: Event): (r: Component)
    requires e.Settle? ==> e.index < |comp.inFlight|
    ensures e.TypeSearch? ==> r == comp.(searchTerm := e.text)
    ensures !e.TypeSearch? ==> r.searchTerm == comp.searchTerm
    ensures !e.ToggleColumnBox? ==> r.selectedColumns == comp.selectedColumns
    ensures !e.FlipRefetchTrigger? ==> r.refetchTrigger == comp.refetchTrigger
    ensures !e.TypeSearch? && !e.Settle? && !e.FlipRefetchTrigger? ==>
              r.ctrl.data == comp.ctrl.data && r.ctrl.total == comp.ctrl.total
    ensures e.ClickPrevious? ==> r.ctrl.table == TableController.PageChange(comp.ctrl.table, comp.ctrl.table.page - 1)
    ensures e.ClickNext? ==> r.ctrl.table == TableController.PageChange(comp.ctrl.table, comp.ctrl.table.page + 1)
    ensures e.ClickHeader? ==> r.ctrl.table == TableController.SortChange(comp.ctrl.table, e.key)
    ensures e.ToggleColumnBox? ==>
              && r.selectedColumns == ToggleColumn(comp.selectedColumns, e.key)
              && r.ctrl.table == TableController.ColumnVisibilityChange(comp.ctrl.table, r.selectedColumns)
    ensures e.DebouncedSearch? ==> r.ctrl.table == TableController.SearchChange(comp.ctrl.table, e.text)
    ensures e.Settle? ==>
              && r.ctrl == TableController.SettleFetch(comp.ctrl, Api.GetPosts(comp.inFlight[e.index], e.outcome).result)
              && r.inFlight == comp.inFlight[..e.index] + comp.inFlight[e.index + 1..]
    ensures e.FlipRefetchTrigger? ==>
              && r.refetchTrigger == !comp.refetchTrigger
              && r.ctrl == TableController.StartFetch(comp.ctrl)
              && r.inFlight == comp.inFlight + [comp.ctrl.table]
    ensures !e.TypeSearch? && !e.Settle? && !e.FlipRefetchTrigger? ==>
              r.inFlight == comp.inFlight + [r.ctrl.table, r.ctrl.table] && r.ctrl.loading && r.ctrl.error == None
  {
    match e
    case ClickPrevious => AfterHandler(comp, TableController.ChangePage(comp.ctrl.table.page - 1))
    case ClickNext => AfterHandler(comp, TableController.ChangePage(comp.ctrl.table.page + 1))
    case ClickHeader(key) => AfterHandler(comp, TableController.ChangeSort(key))
    case ToggleColumnBox(key) =>
      var columns := ToggleColumn(comp.selectedColumns, key);
      AfterHandler(comp.(selectedColumns := columns), TableController.ChangeColumns(columns))
    case TypeSearch(text) => comp.(searchTerm := text)
    case DebouncedSearch(text) => AfterHandler(comp, TableController.ChangeSearch(text))
    case FlipRefetchTrigger =>
      comp.(refetchTrigger := !comp.refetchTrigger,
            ctrl := TableController.StartFetch(comp.ctrl),
            inFlight := comp.inFlight + [comp.ctrl.table])
    case Settle(i, outcome) =>
      comp.(ctrl := TableController.SettleFetch(comp.ctrl, Api.GetPosts(comp.inFlight[i], outcome).result),
            inFlight := comp.inFlight[..i] + comp.inFlight[i + 1..])
  }

  /** A sequence of events; those whose control is not available do nothing. */
  function Run(comp: Component, events: seq<Event>): Component
    decreases |events|
  {
    if events == [] then comp
    else
      var next := if Available(comp, events[0]) then Step(comp, events[0]) else comp;
      Run(next, events[1..])
  }

  /** What holds of a mounted table at every point: the component's column
      selection and the controller's agree, the page never drops below 1,
      the page size stays the default, and while loading some fetch is
      pending. */
  predicate Consistent(comp: Component) {
    && comp.selectedColumns == comp.ctrl.table.visibleColumns
    && comp.ctrl.table.page >= 1
    && comp.ctrl.table.pageSize == TableController.DefaultPageSize
    && (comp.ctrl.loading ==> |comp.inFlight| >= 1)
    && forall i :: 0 <= i < |comp.inFlight| ==>
         comp.inFlight[i].page >= 1 && comp.inFlight[i].pageSize == TableController.DefaultPageSize
  }

  lemma MountIsConsistent(refetchTrigger: bool)
    ensures Consistent(Mount(refetchTrigger))
  {
  }

  /** A handler keeps a table consistent when the component's columns are
      the ones the handler leaves in the view state and the page it leaves
      is at least 1. */
  lemma AfterHandlerKeepsConsistent(comp: Component, a: TableController.Action)
    requires comp.selectedColumns == TableController.Reduce(comp.ctrl.table, a).visibleColumns
    requires TableController.Reduce(comp.ctrl.table, a).page >= 1
    requires comp.ctrl.table.pageSize == TableController.DefaultPageSize
    requires forall i :: 0 <= i < |comp.inFlight| ==>
               comp.inFlight[i].page >= 1 && comp.inFlight[i].pageSize == TableController.DefaultPageSize
    ensures Consistent(AfterHandler(comp, a))
  {
    var r := AfterHandler(comp, a);
    var t := TableController.Reduce(comp.ctrl.table, a);
    TableController.ReducePreservesPageSize(comp.ctrl.table, a);
    assert r.inFlight == comp.inFlight + [t, t];
    forall k | 0 <= k < |r.inFlight|
      ensures r.inFlight[k].page >= 1 && r.inFlight[k].pageSize == TableController.DefaultPageSize
    {
      if k < |comp.inFlight| {
        assert r.inFlight[k] == comp.inFlight[k];
      } else {
        assert r.inFlight[k] == t;
      }
    }
  }

  /** The debounced callback searches for what the search box holds. */
  lemma DebouncedSearchUsesBoxText(comp: Component, text: string)
    requires Available(comp, DebouncedSearch(text))
    ensures Step(comp, DebouncedSearch(text)).ctrl.table.search == comp.searchTerm
    ensures Step(comp, DebouncedSearch(text)).ctrl.table.page == 1
  {
  }

  /** Previous is only on screen and enabled past page 1. */
  lemma PreviousAvailableAfterFirstPage(comp: Component)
    requires Available(comp, ClickPrevious)
    ensures comp.ctrl.table.page != 1
  {
  }

  /** Every event keeps a table consistent, provided Previous is only used
      past page 1 and only pending requests settle. */
  lemma StepKeepsConsistent(comp: Component, e: Event)
    requires Consistent(comp)
    requires e.ClickPrevious? ==> comp.ctrl.table.page != 1
    requires e.Settle? ==> e.index < |comp.inFlight|
    ensures Consistent(Step(comp, e))
  {
    if e.Settle? || e.FlipRefetchTrigger? || e.TypeSearch? {
      PendingEventKeepsConsistent(comp, e);
    } else {
      var t := comp.ctrl.table;
      match e {
        case ClickPrevious =>
          AfterHandlerKeepsConsistent(comp, TableController.ChangePage(t.page - 1));
        case ClickNext =>
          AfterHandlerKeepsConsistent(comp, TableController.ChangePage(t.page + 1));
        case ClickHeader(key) =>
          AfterHandlerKeepsConsistent(comp, TableController.ChangeSort(key));
        case ToggleColumnBox(key) =>
          var columns := ToggleColumn(comp.selectedColumns, key);
          AfterHandlerKeepsConsistent(comp.(selectedColumns := columns), TableController.ChangeColumns(columns));
        case DebouncedSearch(text) =>
          AfterHandlerKeepsConsistent(comp, TableController.ChangeSearch(text));
      }
    }
  }

  /** Typing, a refetch flip and a settlement keep a table consistent. */
  lemma PendingEventKeepsConsistent(comp: Component, e: Event)
    requires Consistent(comp)
    requires e.Settle? || e.FlipRefetchTrigger? || e.TypeSearch?
    requires e.Settle? ==> e.index < |comp.inFlight|
    ensures Consistent(Step(comp, e))
  {
    var r := Step(comp, e);
    if e.Settle? {
      forall k | 0 <= k < |r.inFlight|
        ensures r.inFlight[k].page >= 1 && r.inFlight[k].pageSize == TableController.DefaultPageSize
      {
        if k < e.index {
          assert r.inFlight[k] == comp.inFlight[k];
        } else {
          assert r.inFlight[k] == comp.inFlight[k + 1];
        }
      }
    } else if e.FlipRefetchTrigger? {
      forall k | 0 <= k < |r.inFlight|
        ensures r.inFlight[k].page >= 1 && r.inFlight[k].pageSize == TableController.DefaultPageSize
      {
        if k < |comp.inFlight| {
          assert r.inFlight[k] == comp.inFlight[k];
        }
      }
    }
  }

  /** Any sequence of events from a consistent state keeps it consistent. */
  lemma {:induction false} RunKeepsConsistent(comp: Component, events: seq<Event>)
    requires Consistent(comp)
    ensures Consistent(Run(comp, events))
    decreases |events|
  {
    if events != [] {
      var next := if Available(comp, events[0]) then Step(comp, events[0]) else comp;
      if Available(comp, events[0]) {
        if events[0].ClickPrevious? {
          PreviousAvailableAfterFirstPage(comp);
        }
        StepKeepsConsistent(comp, events[0]);
      }
      RunKeepsConsistent(next, events[1..]);
    }
  }

  /** Clicking a header sorts by that column's key and moves the arrow
      to it: down when it was already sorted ascending, up otherwise. */
  lemma ClickedHeaderGetsArrow(comp: Component, key: string)
    ensures var r := Step(comp, ClickHeader(key));
            && r.ctrl.table.sortBy == key
            && SortIndicator(r.ctrl.table, key)
               == Some(if comp.ctrl.table.sortBy == key && comp.ctrl.table.sortOrder == Asc then Down else Up)
  {
  }

  /** A crashed render is final: no event acts on the table any more. */
  lemma {:induction false} CrashIsFinal(comp: Component, events: seq<Event>)
    requires Render(comp.ctrl, comp.selectedColumns).Crashed?
    ensures forall e :: !Available(comp, e)
    ensures Run(comp, events) == comp
    decreases |events|
  {
    if events != [] {
      assert !Available(comp, events[0]);
      CrashIsFinal(comp, events[1..]);
    }
  }

  /** `getPosts` accepts an error answer whose body is an object such as
      `{"message": ...}`: the first settlement after mounting stores that
      object as the data, and the next render crashes. */
  lemma ErrorAnswerCrashesTable(refetchTrigger: bool, status: int, message: Option<string>, header: Option<string>)
    ensures var comp := Step(Mount(refetchTrigger), Settle(0, Api.Received(Api.Response(status, Api.Parsed(OtherObject(message)), header))));
            Render(comp.ctrl, comp.selectedColumns).Crashed?
  {
  }

  /** The component applies settlements in the order they arrive, not the
      order their requests were sent: after a header click, if the click's
      fetch settles first and a fetch started at mounting settles last, the
      table shows the mounting request's data under the new sort. */
  lemma OlderSettlementOverwritesNewer(refetchTrigger: bool, key: string, older: Api.Response, newer: Api.Response)
    requires older.body.Parsed? && newer.body.Parsed?
    ensures var clicked := Step(Mount(refetchTrigger), ClickHeader(key));
            var afterNewer := Step(clicked, Settle(2, Api.Received(newer)));
            var afterOlder := Step(afterNewer, Settle(0, Api.Received(older)));
            && clicked.inFlight[2] == clicked.ctrl.table
            && clicked.inFlight[0] == Mount(refetchTrigger).ctrl.table
            && afterOlder.ctrl.table == clicked.ctrl.table
            && afterOlder.ctrl.data == older.body.json
            && !afterOlder.ctrl.loading
  {
  }

  /** With two fetches in flight, the first to settle already clears the
      loading flag: rows are shown while the other request is still
      pending. */
  lemma LoadingEndsAtFirstSettlement(refetchTrigger: bool, outcome: Api.Outcome)
    ensures var comp := Step(Mount(refetchTrigger), Settle(0, outcome));
            !comp.ctrl.loading && |comp.inFlight| == 1
  {
  }
}

=== FILE: numbers.dfy ===
/** Decimal text for integers: `String(n)` as the query builder and the
    error message use it, and `Number(text)` as the total-count header
    is read with it, for the forms the model distinguishes. */
module Numbers {
  import opened Data

  predicate IsDigit(ch: char) {
    '0' <= ch <= '9'
  }

  predicate AllDigits(s: string) {
    forall i :: 0 <= i < |s| ==> IsDigit(s[i])
  }

  function DigitValue(ch: char): (d: nat)
    requires IsDigit(ch)
    ensures d < 10
  {
    ch as int - '0' as int
  }

  function DigitChar(d: nat): (ch: char)
    requires d < 10
    ensures IsDigit(ch) && DigitValue(ch) == d
  {
    ('0' as int + d) as char
  }

  /** `String(n)` for a non-negative integer: digits only, no leading zero. */
  function NatToDecimal(n: nat): (s: string)
    ensures |s| >= 1 && AllDigits(s)
    ensures |s| > 1 ==> s[0] != '0'
    decreases n
  {
    if n < 10 then [DigitChar(n)] else NatToDecimal(n / 10) + [DigitChar(n % 10)]
  }

  /** `String(i)` for an integer. JavaScript numbers are doubles, so this is
      `String`'s output only while `|i|` is below 1e21 (where `String`
      switches to exponent form), and the value itself is exact only up to
      2^53; view-state numbers stay far below both. */
  function IntToDecimal(i: int): (s: string)
    ensures |s| >= 1
    ensures s[0] == '-' <==> i < 0
  {
    if i < 0 then "-" + NatToDecimal(-i) else NatToDecimal(i)
  }

  /** The value of a non-empty run of decimal digits, most significant first. */
  function DigitsValue(s: string): nat
    requires |s| >= 1 && AllDigits(s)
    decreases |s|
  {
    if |s| == 1 then DigitValue(s[0])
    else 10 * DigitsValue(s[..|s| - 1]) + DigitValue(s[|s| - 1])
  }

  /** A non-empty digit run, optionally after one sign character. */
  predicate IsSignedDigits(s: string) {
    if |s| >= 1 && (s[0] == '-' || s[0] == '+') then |s| >= 2 && AllDigits(s[1..])
    else |s| >= 1 && AllDigits(s)
  }

  /** `Number(text)`: the empty text is 0, an optionally signed run of
      decimal digits is its value, and every other text is NaN. */
  function ToNumber(s: string): (r: JsNumber)
    ensures s == "" ==> r == Finite(0)
    ensures r.NaN? <==> s != "" && !IsSignedDigits(s)
    ensures |s| >= 1 && AllDigits(s) ==> r == Finite(DigitsValue(s))
    ensures |s| >= 2 && s[0] == '-' && AllDigits(s[1..]) ==> r == Finite(0 - DigitsValue(s[1..]))
    ensures |s| >= 2 && s[0] == '+' && AllDigits(s[1..]) ==> r == Finite(DigitsValue(s[1..]))
  {
    if s == "" then Finite(0)
    else if !IsSignedDigits(s) then NaN
    else if s[0] == '-' then Finite(0 - DigitsValue(s[1..]) as int)
    else if s[0] == '+' then Finite(DigitsValue(s[1..]))
    else Finite(DigitsValue(s))
  }

  /** Reading back the digits `NatToDecimal` writes gives the number. */
  lemma {:induction false} DigitsValueOfDecimal(n: nat)
    ensures DigitsValue(NatToDecimal(n)) == n
    decreases n
  {
    if n >= 10 {
      var s := NatToDecimal(n);
      assert s[..|s| - 1] == NatToDecimal(n / 10);
      DigitsValueOfDecimal(n / 10);
    }
  }

  /** `Number(String(i)) == i` for every integer the model writes. */
  lemma DecimalRoundTrip(i: int)
    ensures ToNumber(IntToDecimal(i)) == Finite(i)
  {
    var s := IntToDecimal(i);
    if i < 0 {
      assert s[1..] == NatToDecimal(-i);
      DigitsValueOfDecimal(-i);
    } else {
      DigitsValueOfDecimal(i);
    }
  }
}
